=== FILE: README.md ===
# baustein components: a Dafny model

This project models the core of the baustein component framework
(`build/components.js`). The framework binds JavaScript objects to DOM
elements and keeps them in a page-wide registry. It delivers browser
events to them through one delegated listener per event type on `body`.

The model is functional. The framework's global variables become one
immutable `Components.State`, made of these parts:

- `dom`: an abstract document. Each element has a parent element and its
  `data-component-name` / `data-component-id` attributes. The document
  also names its `body` and fixes a document order.
- `types`: the type map (`componentClasses`), from name to the prototype's
  `name` and declared `events`.
- `registry`: the instance registry (`componentInstances`). It is keyed by
  the id's decimal text, as the JavaScript object is.
- `nextId` and `eventsHandled`: the `componentId` counter (starting at 1)
  and the diagnostic event counter.

Each operation is a pure transition on that state:

- `register`: `Components.Register`.
- The `Component` constructor: `Components.Construct`.
- `remove`, `destroy` and `appendTo`: `Components.Remove`,
  `Components.Destroy` and `Components.AppendTo`.
- `fromElement` and `parse`: `Discovery.FromElement` and `Discovery.Parse`.
- `closestComponent`: `Components.ClosestComponent`.
- `closestSelector`: `Dom.ClosestSelector`.
- `handleEvent`: `Events.HandleEvent`.

A thrown error is a `Failure`. A handler invocation
`component[method](event, el?)` is not run: it is recorded as an
`Events.Call`. The CSS selector test is a parameter of type `Dom.Matcher`,
so every result about selectors holds for any selector engine.

The ancestor walks go over an explicit sequence, `Dom.Walk`. It holds the
element and its ancestors strictly below `body`. `Dom.Path` computes it
with a guard against revisiting a node. In a tree the guard never applies;
it is what makes the walk terminate in the model, and `Dom.WalkMaximal` shows the walk
stops only at `body` or at the top of the tree.

`Components.Inv` holds in every reachable state: `Init` establishes it and
every operation keeps it. It says that each registry entry sits under the
decimal text of its own id, and that every id given out so far is below
the counter. `Discovery.Parse` and `Discovery.ParseAll` require it. The
id-freshness and counting results rest on it and on the round trip
`Decimal.ValueShow`: the id attribute read back is the same integer.

Three behaviours of the code worth knowing:

- **Registration.** Only `fromElement` registers an instance
  (`build/components.js:126`). The constructor does not. A component made
  with `new X()` and appended to the page therefore receives no events.
  `Scenarios.ConstructedComponentIsNotDispatched` proves this.
- **Selector walk.** `closestSelector` is not bounded at the component's
  own element. It walks up to `body` (`build/components.js:55`). A
  selector binding can therefore be handed an element outside the
  component.
- **Repeated `destroy`.** A second `destroy` is harmless because `remove`
  tests `this.el` (`build/components.js:185`).
  `Components.DestroyTwice` proves the second call changes nothing.

## Model

| member | source | states |
|---|---|---|
| Decimal.Show | build/components.js:144 | the id written into `data-component-id` is a non-empty string of decimal digits with no leading zero |
| Decimal.ValueShow | build/components.js:142-144 | the id attribute, read back as a number, is exactly the id that was written: the attribute round-trips |
| Decimal.ShowInjective | build/components.js:117-126 | two ids share a registry key or an attribute value exactly when they are equal |
| Dom.Walk | build/components.js:33-41 | the walk starts at the element, follows parent links, stays in the document and never includes `body`; it is empty exactly for `body` or a non-element |
| Dom.PathMaximal | build/components.js:33-41 | the parent chain runs as far as it can: the last node has no parent element, or its parent is outside the document or already visited |
| Dom.WalkMaximal | build/components.js:33-41 | the walk stops only at `body` or at the top of the tree, as the loops in `closestComponent` and `closestSelector` do (also lines 55-61) |
| Dom.First | build/components.js:33-44 | the first element of a walk passing a test: it passes, nothing before it passes, and there is none when no element passes |
| Dom.ClosestSelector | build/components.js:53-65 | returns the nearest ancestor-or-self below `body` matching the selector, or null when no visited element matches |
| Dom.Filter | build/components.js:20-22 | keeps exactly the elements satisfying the test, in their original order, without duplicates when the input has none |
| Dom.NamedDescendants | build/components.js:254 | the `[data-component-name]` query lists exactly the root's strict descendants that carry the name attribute, in document order, each once |
| Dom.NamedDescendantsSameShape | build/components.js:251-255 | writing attribute values never changes which elements `parse` visits |
| Dom.Detach | build/components.js:186 | the removed element loses its parent and nothing else changes |
| Dom.AppendChild | build/components.js:174-178 | the child gets the new parent and nothing else changes; inserting an element into its own subtree is refused |
| Dom.AppendedIsDescendant | build/components.js:174-178 | after a successful insertion the child lies inside the target's subtree |
| Dom.FreshNode | build/components.js:137-139 | a newly created root element is distinct from every element of the document and from `body`, and no element has it as parent |
| Components.Init | build/components.js:4-7 | the state at load time satisfies the registry invariant |
| Components.FreshKey | build/components.js:142 | the next id is not the key of any registered instance |
| Components.Lookup | build/components.js:38 | a registry read yields an instance exactly when the key is registered, and then that entry |
| Components.RegisterAsWritten | build/components.js:270-272 | as written, `register` throws exactly when the name is registered or is a member every object inherits |
| Components.InheritedNameRefused | build/components.js:270-272 | as written, registering `toString` on a fresh page throws a duplicate error, while the corrected `register` accepts it |
| Components.Register | build/components.js:263-293 | throws a duplicate error exactly when the name is taken; otherwise adds exactly that name, with the stamped name taken from `impl.name` when it is given, and leaves every other entry and the rest of the state unchanged |
| Components.RegisterTwiceFails | build/components.js:270-272 | a name registered once is refused the second time, whatever implementation comes with it |
| Components.RegisterDistinctSucceeds | build/components.js:263-293 | two distinct fresh names both register, and both end up in the type map |
| Components.Construct | build/components.js:135-147 | takes the counter as id and increments it; stamps the type's name and the id, as exactly its decimal text (the registry key), onto the given element or a new detached element with no children; defaults `events` to empty; registers nothing |
| Components.ConstructInv | build/components.js:142 | construction keeps the registry invariant, and the new id's key is not in the registry |
| Components.IdsIncrease | build/components.js:142 | the next construction gets a strictly larger id than the one before it |
| Components.Remove | build/components.js:184-189 | detaches the element if the instance still has one, keeping its attributes; otherwise nothing changes |
| Components.RemoveIdempotent | build/components.js:184-189 | removing twice is the same as removing once |
| Components.Destroy | build/components.js:191-196 | removes the element, drops the reference and deletes exactly the instance's key from the registry; types and counters are unchanged |
| Components.DestroyTwice | build/components.js:184-196 | a second `destroy` of the same instance changes nothing |
| Components.DestroyInv | build/components.js:194 | destruction keeps the registry invariant |
| Components.AppendTo | build/components.js:167-182 | a missing target, or a component target without an element, changes nothing; a destroyed instance cannot be inserted; otherwise the element becomes a child of the target, unless that would put it inside its own subtree |
| Components.ClosestComponent | build/components.js:29-45 | the result is the registry entry for the nearest id-carrying ancestor-or-self below `body`; it is null when that id is stale (the walk never goes past it) or when no such element exists |
| Discovery.FromElement | build/components.js:108-128 | four outcomes: null without a truthy name; a registry lookup with no state change when an id is present; an unknown-type error; or a new instance with the counter's id, the type's name and `events` (empty by default), registered under that id, whose element now carries the id and the type's name |
| Discovery.FromElementKeepsBlocked | build/components.js:121-127 | a successful `fromElement` neither creates nor removes a blocked element, one that waits for an unregistered type |
| Discovery.FromElementCount | build/components.js:125-126 | under the invariant, a new instance adds exactly one registry entry, and an element needing no new instance leaves the state unchanged |
| Discovery.FromElementTwice | build/components.js:117-119 | a second `fromElement` on the same element changes nothing and, unless the stamped name is empty, returns the same instance |
| Discovery.SettledStable | build/components.js:113-119 | an element with no truthy name, or with an id, leaves `fromElement` nothing to change |
| Discovery.ParseAll | build/components.js:254 | without error every listed element ends settled, and each one that was waiting is bound to a registered instance on it; any error is an unknown type; existing entries and settled elements are never touched |
| Discovery.ParseAllFailsIffBlocked | build/components.js:254 | the pass fails if and only if some listed element waits for an unregistered type |
| Discovery.ParseAllStopsAtFirstUnknown | build/components.js:254 | the pass stops at the first blocked element, with that element's name as the error and the state the elements before it produced |
| Discovery.Parse | build/components.js:251-255 | defaults the root to `body`; fails if and only if the root or a named descendant waits for an unregistered type; without error the root and all named descendants end settled, and each of them that was waiting is bound to a registered instance |
| Discovery.ParseIsParseAll | build/components.js:251-255 | `parse` is the pass over the root followed by its named descendants in document order, taken from the tree as it was when `parse` began |
| Discovery.ParseAllSettled | build/components.js:254 | running discovery over settled elements changes nothing |
| Discovery.ParseIdempotent | build/components.js:251-255 | a second `parse` of the same subtree succeeds and leaves the state, and so the registry, unchanged |
| Discovery.ParseAllCount | build/components.js:254 | over distinct elements, discovery adds one registry entry per element that was waiting |
| Discovery.ParseCount | build/components.js:251-255 | `parse` adds exactly one registry entry per element, the root or a named descendant, that was waiting for an instance |
| Discovery.DestroyedElementStaysUnbound | build/components.js:117-118 | after `destroy`, discovery on the old element finds a stale id and yields no instance instead of building a new one |
| Events.Fire | build/components.js:226-239 | a binding fires only for its event type and always for the owner with its own method; without a truthy selector it fires with no element; with one, the element it passes matches the selector |
| Events.FireNearestMatch | build/components.js:228-236 | a selector binding does not fire when no ancestor-or-self of the target below `body` matches; otherwise it fires with the first match on the way up |
| Events.Scan | build/components.js:224-243 | every call is for the owner and comes from a binding of this event type; every binding that fires contributes its call; at most one call per binding |
| Events.ScanAppend | build/components.js:224-243 | bindings are scanned in declaration order with no early exit: scanning a concatenation is concatenating the scans |
| Events.ScanOtherEvents | build/components.js:226 | bindings for other event types are never invoked |
| Events.HandleEvent | build/components.js:210-245 | counts every event exactly once, with no other state change; invokes nothing without an owning component; otherwise every call goes to the owner for a binding of this type, and every selector-free binding of this type is invoked |
| Events.HandleEventInv | build/components.js:212 | dispatch keeps the registry invariant |
| Events.InnermostComponentHandles | build/components.js:215 | with nested live components, every call goes to the innermost one and none to an outer one |
| Events.SelectorBindingFires | build/components.js:224-243 | a component with one selector binding invokes its handler exactly once, with the nearest matching element on the walk |
| Events.SelectorBindingSilent | build/components.js:224-243 | the same component invokes nothing when no element on the walk matches the selector |
| Events.BindEvents | build/components.js:298-318 | one listener per event type in the fixed list; capture is used exactly for blur, focus, submit and change |
| Scenarios.DiscoveredComponentHandlesClick | build/components.js:125-126 | a component bound by `fromElement` with one selector-free binding gets exactly one call for an event of that type on its element, and one event is counted |
| Scenarios.ConstructedComponentIsNotDispatched | build/components.js:135-147 | a component made by its constructor and appended to `body` is not registered, so an event on its element invokes nothing |

## Findings

| source | as written | input that shows it | evidently intended | confidence | as-written member | corrected member |
|---|---|---|---|---|---|---|
| build/components.js:270 | the duplicate test reads `componentClasses[name]` on a plain object literal, which inherits `toString`, `constructor` and the other members of `Object.prototype` | `register('toString', {})` on a fresh page throws "A component called toString already exists" | a name is a duplicate only when a type was registered under it | high, not executed | Components.RegisterAsWritten (shown by Components.InheritedNameRefused) | Components.Register |

The same inherited lookup appears three more times. `fromElement` reads the
type map at `build/components.js:121`. The registry `componentInstances`
is a plain object too (line 6), and it is read by `fromElement` at line 118
and by `closestComponent` at line 38. The model tests membership in the
map in all three places, as the corrected `register` does. What the code
does there instead is described under "Left out", on the lines for
`Components.Lookup`, `Components.ClosestComponent`,
`Discovery.FromElement` and `Events.HandleEvent`.

## Left out

- Selector matching (`matches`, `build/components.js:73-102`): the native and vendor-prefixed engines and the scratch-parent fallback are replaced by an arbitrary `Dom.Matcher`.
- `createRootElement` and `tagName`: an element created for a component is a fresh detached node. Its tag is not modelled.
- The `init` and `render` hooks: they are no-ops unless a type overrides them, and overrides are user code.
- Handler bodies: they are user code reached by dynamic dispatch, so an invocation is only recorded. The scan reads the state as it was when the event arrived. A handler that changes the DOM or the registry during the scan is not modelled.
- Events.BindEvents: only the listener table and its capture flags are modelled. Attaching listeners is platform I/O. Calling `bindEvents` twice, which would attach every listener twice, is not modelled.
- Components.AppendTo: updates the parent link only. It does not move the element to the end of the target's children, and the document order that `parse` follows is not updated.
- Prototype mechanics (`Surrogate`, the copy of `impl`'s own properties): a type is reduced to its stamped name and its `events`. The constructor that `register` returns is not modelled, and neither are other implementation properties.
- Number limits: ids are unbounded naturals. JavaScript numbers lose precision above 2^53 and print in exponent form from 10^21. Neither limit is modelled.
- Non-element event targets, such as text nodes and the document, are not modelled. An event target is an element id.
- Object identity: instances are values. `Destroy` returns the instance with its element dropped, where JavaScript mutates the shared object.
- Components.Lookup: the registry is a plain object (`build/components.js:6`), so reading a key that names an `Object.prototype` member, such as a hand-written `data-component-id="toString"`, `constructor` or `__proto__`, yields the inherited value rather than `undefined`. The model reads only registered keys and yields `None` for these.
- Components.ClosestComponent: for the same reason, an id attribute naming an inherited member makes line 38 return that inherited value, not null. The model returns `None`.
- Discovery.FromElement: both lookups read plain objects. At line 118, an id attribute naming an inherited member returns that inherited value; the model returns no instance. At line 121, a name inherited from `Object.prototype` passes the type test. For `constructor`, `new Object(el)` returns the element itself, line 126 stores it under the key `undefined`, and `parse` carries on. For the other inherited names `new` throws a `TypeError`. The model tests membership in the type map and reports an unknown type for all of them.
- Events.HandleEvent: assumes every method a binding names exists on the instance and returns normally. In the source a missing method throws a `TypeError` at `build/components.js:233` or 238, and so does a handler that throws. Either one ends the scan early. So `Events.ScanAppend` ("no early exit") and "every selector-free binding is invoked" hold only for methods that exist and return. The model also assumes every truthy selector is one the engine accepts: an invalid selector such as `li >` makes `matches` throw a `SyntaxError` (the native call at line 82, or `querySelectorAll` in `qsa` at line 95), which leaves `closestSelector` at line 230 and ends the scan, so later selector-free bindings are not invoked; in the fallback branch the throw also skips line 98 and leaves a parentless element inside the scratch parent. Also, when the nearest id names an inherited `Object.prototype` member, `closestComponent` returns that inherited value (see `Components.ClosestComponent`). `handleEvent` then counts the event, reads `events` as `undefined` and throws a `TypeError` at `events.length` (lines 221 and 224). The model returns normally with no calls.
- Discovery.ParseAll: does not state that ids increase along document order. That order holds only by construction: the list is processed front to back.
- The module-loader and `window` export glue (`build/components.js:320-327`).

=== FILE: components.dfy ===
/**
  Component types, instances and the process-wide state of the framework:
  the type map (`componentClasses`), the instance registry
  (`componentInstances`), the id counter (`componentId`) and the
  `eventsHandled` counter, together with registration, construction,
  the lifecycle operations and the `closestComponent` lookup.
*/
module Components {
  import opened Wrappers
  import opened Dom
  import Decimal

  /** A declared event binding `{event, selector?, method}`; `handler` is the method name. */
  datatype Binding = Binding(event: string, selector: Option<string>, handler: string)

  /** The own properties of an implementation object that the framework reads. */
  datatype Impl = Impl(name: Option<string>, events: Option<seq<Binding>>)

  /** The arguments of `register`: a name and an optional implementation, or an implementation alone. */
  datatype RegisterArg = ByName(name: string, impl: Option<Impl>) | ByImpl(object: Impl)

  /**
    A registered type: the `name` its prototype carries (the one stamped on
    elements) and the `events` it declares, if any.
  */
  datatype TypeDef = TypeDef(name: string, events: Option<seq<Binding>>)

  /** A component instance; `el` is `None` once the instance is destroyed. */
  datatype Instance = Instance(id: nat, name: string, el: Option<NodeId>, events: seq<Binding>)

  datatype State = State(
    dom: Document,
    types: map<string, TypeDef>,
    registry: map<string, Instance>,
    nextId: nat,
    eventsHandled: nat)

  datatype Error = DuplicateType(name: string) | UnknownType(name: string) | NoElement | HierarchyRequest

  /** The state when the script has loaded: no types, no instances, the counter at 1. */
  function Init(dom: Document): (st: State)
    ensures Inv(st)
  {
    State(dom, map[], map[], 1, 0)
  }

  /**
    Every registry entry sits under the decimal text of its own id, and every
    id handed out so far is below the counter.
  */
  predicate Inv(st: State) {
    && st.nextId >= 1
    && forall k :: k in st.registry ==>
         k == Decimal.Show(st.registry[k].id) && 1 <= st.registry[k].id < st.nextId
  }

  /** The id the next construction takes is not in use by any registered instance. */
  lemma FreshKey(st: State)
    requires Inv(st)
    ensures Decimal.Show(st.nextId) !in st.registry
  {
    if Decimal.Show(st.nextId) in st.registry {
      Decimal.ShowInjective(st.nextId, st.registry[Decimal.Show(st.nextId)].id);
    }
  }

  /** `componentInstances[key] || null`. */
  function Lookup(registry: map<string, Instance>, key: string): (r: Option<Instance>)
    ensures r.Some? <==> key in registry
    ensures r.Some? ==> r.value == registry[key]
  {
    if key in registry then Some(registry[key]) else None
  }

  // ---------------------------------------------------------------- register

  /**
    The key `register` files a type under. An implementation passed alone
    supplies its own `name`; when it has none, JavaScript uses the text
    "undefined" as the key and as the prototype's name.
  */
  function TypeName(arg: RegisterArg): string {
    match arg
    case ByName(n, _) => n
    case ByImpl(impl) => impl.name.GetOr("undefined")
  }

  /**
    The type `register` builds: the prototype's `name` is the key unless
    the implementation has its own `name`, which overrides it.
  */
  function TypeOf(arg: RegisterArg): TypeDef {
    match arg
    case ByName(n, None) => TypeDef(n, None)
    case ByName(n, Some(impl)) => TypeDef(impl.name.GetOr(n), impl.events)
    case ByImpl(impl) => TypeDef(TypeName(arg), impl.events)
  }

  /**
    The properties every JavaScript object inherits from `Object.prototype`;
    a lookup `componentClasses[name]` on one of them finds the inherited
    member, which is truthy.
  */
  const InheritedKeys: set<string> := {
    "constructor", "hasOwnProperty", "isPrototypeOf", "propertyIsEnumerable",
    "toLocaleString", "toString", "valueOf", "__proto__",
    "__defineGetter__", "__defineSetter__", "__lookupGetter__", "__lookupSetter__"
  }

  /**
    `register` as the source writes it: the duplicate test reads the plain
    object `componentClasses`, so inherited names count as taken.
  */
  function RegisterAsWritten(st: State, arg: RegisterArg): (r: Result<State, Error>)
    ensures r.Failure? <==> TypeName(arg) in st.types || TypeName(arg) in InheritedKeys
    ensures r.Success? ==> r == Register(st, arg)
  {
    if TypeName(arg) in InheritedKeys then Failure(DuplicateType(TypeName(arg)))
    else Register(st, arg)
  }

  /**
    `register`, with the duplicate test it evidently intends: a name is
    taken exactly when a type was registered under it. The new type is
    added under its name and nothing else changes.
  */
  function Register(st: State, arg: RegisterArg): (r: Result<State, Error>)
    ensures r.Failure? <==> TypeName(arg) in st.types
    ensures r.Failure? ==> r.error == DuplicateType(TypeName(arg))
    ensures r.Success? ==>
      && r.value.types.Keys == st.types.Keys + {TypeName(arg)}
      && (forall k :: k in st.types ==> r.value.types[k] == st.types[k])
      && r.value.types[TypeName(arg)] == TypeOf(arg)
      && r.value.(types := st.types) == st
  {
    var name := TypeName(arg);
    if name in st.types then Failure(DuplicateType(name))
    else Success(st.(types := st.types[name := TypeOf(arg)]))
  }

  /** A name is rejected by a second `register` whatever implementation comes with it. */
  lemma RegisterTwiceFails(st: State, arg: RegisterArg, again: RegisterArg)
    requires Register(st, arg).Success?
    requires TypeName(again) == TypeName(arg)
    ensures Register(Register(st, arg).value, again) == Failure(DuplicateType(TypeName(arg)))
  {
  }

  /** Two different names both register, in either order. */
  lemma RegisterDistinctSucceeds(st: State, a: RegisterArg, b: RegisterArg)
    requires TypeName(a) != TypeName(b)
    requires TypeName(a) !in st.types && TypeName(b) !in st.types
    ensures Register(st, a).Success?
    ensures Register(Register(st, a).value, b).Success?
    ensures Register(Register(st, a).value, b).value.types.Keys == st.types.Keys + {TypeName(a), TypeName(b)}
  {
  }

  /** On a fresh page, `register('toString')` is refused though nothing was registered. */
  lemma InheritedNameRefused(dom: Document)
    ensures RegisterAsWritten(Init(dom), ByName("toString", None)) == Failure(DuplicateType("toString"))
    ensures Register(Init(dom), ByName("toString", None)).Success?
  {
  }

  // ------------------------------------------------------------ construction

  datatype Built = Built(state: State, instance: Instance)

  /**
    The `Component` constructor for type `t`, on element `el`, or on a new
    detached element when none is given. It takes the counter's value as
    the id, stamps the type's name and the id onto the element, and
    defaults `events` to the empty list. It does not touch the registry.
  */
  function Construct(st: State, t: TypeDef, el: Option<NodeId>): (b: Built)
    requires el.Some? ==> el.value in st.dom.elems
    ensures b.instance.id == st.nextId && b.state.nextId == st.nextId + 1
    ensures b.instance.el.Some? && b.instance.name == t.name
    ensures el.Some? ==> b.instance.el == el
    ensures el.None? ==> b.instance.el.value !in st.dom.elems
    ensures el.None? ==> forall x :: x in st.dom.elems ==> st.dom.elems[x].parent != b.instance.el
    ensures t.events.Some? ==> b.instance.events == t.events.value
    ensures t.events.None? ==> b.instance.events == []
    ensures var n := b.instance.el.value;
      && b.state.dom.elems.Keys == st.dom.elems.Keys + {n}
      && b.state.dom.elems[n].nameAttr == Some(t.name)
      && Truthy(b.state.dom.elems[n].idAttr)
      && Decimal.AllDigits(b.state.dom.elems[n].idAttr.value)
      && Decimal.Value(b.state.dom.elems[n].idAttr.value) == b.instance.id
      && b.state.dom.elems[n].idAttr == Some(Decimal.Show(b.instance.id))
      && (el.Some? ==> b.state.dom.elems[n].parent == st.dom.elems[n].parent)
      && (el.None? ==> b.state.dom.elems[n].parent.None?)
      && (forall x :: x in st.dom.elems && x != n ==> b.state.dom.elems[x] == st.dom.elems[x])
    ensures b.state.dom.body == st.dom.body && b.state.dom.order == st.dom.order
    ensures b.state.registry == st.registry && b.state.types == st.types
    ensures b.state.eventsHandled == st.eventsHandled
  {
    var n := if el.Some? then el.value else FreshNode(st.dom);
    var e := if el.Some? then st.dom.elems[n] else Elem(None, None, None);
    var c := Instance(st.nextId, t.name, Some(n), t.events.GetOr([]));
    var text := Decimal.Show(c.id);
    Decimal.ValueShow(c.id);
    var stamped := e.(nameAttr := Some(t.name), idAttr := Some(text));
    Built(st.(dom := st.dom.(elems := st.dom.elems[n := stamped]), nextId := st.nextId + 1), c)
  }

  /** Construction keeps the invariant: the counter moves past the id it hands out. */
  lemma ConstructInv(st: State, t: TypeDef, el: Option<NodeId>)
    requires Inv(st)
    requires el.Some? ==> el.value in st.dom.elems
    ensures Inv(Construct(st, t, el).state)
    ensures Decimal.Show(Construct(st, t, el).instance.id) !in st.registry
  {
    FreshKey(st);
  }

  /** Ids strictly increase: the next construction gets a larger id than the one before it. */
  lemma IdsIncrease(st: State, t: TypeDef, el: Option<NodeId>, u: TypeDef, el2: Option<NodeId>)
    requires el.Some? ==> el.value in st.dom.elems
    requires el2.Some? ==> el2.value in Construct(st, t, el).state.dom.elems
    ensures Construct(st, t, el).instance.id <
            Construct(Construct(st, t, el).state, u, el2).instance.id
  {
  }

  // --------------------------------------------------------------- lifecycle

  /** `remove`: detach the element from its parent, if the instance still has one. */
  function Remove(d: Document, c: Instance): (e: Document)
    ensures e.body == d.body && e.order == d.order && e.elems.Keys == d.elems.Keys
    ensures c.el.None? || c.el.value !in d.elems ==> e == d
    ensures c.el.Some? && c.el.value in d.elems ==>
      && e.elems[c.el.value].parent.None?
      && e.elems[c.el.value].nameAttr == d.elems[c.el.value].nameAttr
      && e.elems[c.el.value].idAttr == d.elems[c.el.value].idAttr
    ensures forall x :: x in d.elems && (c.el.None? || x != c.el.value) ==> e.elems[x] == d.elems[x]
  {
    if c.el.Some? && c.el.value in d.elems && d.elems[c.el.value].parent.Some? then
      Detach(d, c.el.value)
    else d
  }

  /** Removing twice is removing once. */
  lemma RemoveIdempotent(d: Document, c: Instance)
    ensures Remove(Remove(d, c), c) == Remove(d, c)
  {
  }

  datatype Destroyed = Destroyed(state: State, instance: Instance)

  /**
    `destroy`: remove the element, drop the element reference and delete
    the instance's id from the registry. The call returns `null`; the model
    returns the instance with its reference dropped.
  */
  function Destroy(st: State, c: Instance): (r: Destroyed)
    ensures r.instance == c.(el := None)
    ensures Decimal.Show(c.id) !in r.state.registry
    ensures r.state.registry.Keys == st.registry.Keys - {Decimal.Show(c.id)}
    ensures forall k :: k in r.state.registry ==> r.state.registry[k] == st.registry[k]
    ensures r.state.dom == Remove(st.dom, c)
    ensures r.state.types == st.types && r.state.nextId == st.nextId
    ensures r.state.eventsHandled == st.eventsHandled
  {
    Destroyed(st.(dom := Remove(st.dom, c), registry := st.registry - {Decimal.Show(c.id)}), c.(el := None))
  }

  /** A second `destroy` is harmless and changes nothing. */
  lemma DestroyTwice(st: State, c: Instance)
    ensures var once := Destroy(st, c);
      Destroy(once.state, once.instance) == once
  {
  }

  /** Destruction keeps the invariant. */
  lemma DestroyInv(st: State, c: Instance)
    requires Inv(st)
    ensures Inv(Destroy(st, c).state)
  {
  }

  /** Where `appendTo` puts the instance: nowhere, under another component's element, or under an element. */
  datatype Target = Nowhere | ToComponent(owner: Instance) | ToElement(node: NodeId)

  function Insert(d: Document, el: Option<NodeId>, parent: NodeId): (r: Result<Document, Error>)
    requires el.Some? ==> el.value in d.elems
    requires parent in d.elems
  {
    if el.None? then Failure(NoElement)
    else
      match AppendChild(d, el.value, parent)
      case Failure(_) => Failure(Error.HierarchyRequest)
      case Success(e) => Success(e)
  }

  /**
    `appendTo`: make the instance's element the child of the target. A
    missing target, or a component target whose element is gone, leaves
    the document alone; a destroyed instance cannot be inserted, nor can
    an element be put inside its own subtree.
  */
  function AppendTo(d: Document, c: Instance, target: Target): (r: Result<Document, Error>)
    requires c.el.Some? ==> c.el.value in d.elems
    requires target.ToComponent? && target.owner.el.Some? ==> target.owner.el.value in d.elems
    requires target.ToElement? ==> target.node in d.elems
    ensures target.Nowhere? ==> r == Success(d)
    ensures target.ToComponent? && target.owner.el.None? ==> r == Success(d)
    ensures var p := if target.ToElement? then Some(target.node)
                     else if target.ToComponent? then target.owner.el else None;
      p.Some? ==>
        && (c.el.None? ==> r == Failure(NoElement))
        && (c.el.Some? ==> (r.Failure? <==> c.el.value in Path(d, p.value, {})))
        && (r.Success? ==> IsDescendant(r.value, c.el.value, p.value))
        && (r.Success? ==> r.value.elems.Keys == d.elems.Keys)
        && (r.Success? ==> r.value.elems[c.el.value] == d.elems[c.el.value].(parent := p))
        && (r.Success? ==> forall x :: x in d.elems && x != c.el.value ==> r.value.elems[x] == d.elems[x])
  {
    match target
    case Nowhere => Success(d)
    case ToComponent(owner) => if owner.el.None? then Success(d) else AppendInto(d, c, owner.el.value)
    case ToElement(p) => AppendInto(d, c, p)
  }

  function AppendInto(d: Document, c: Instance, p: NodeId): (r: Result<Document, Error>)
    requires c.el.Some? ==> c.el.value in d.elems
    requires p in d.elems
    ensures c.el.None? ==> r == Failure(NoElement)
    ensures c.el.Some? ==> (r.Failure? <==> c.el.value in Path(d, p, {}))
    ensures r.Success? ==> c.el.Some? && IsDescendant(r.value, c.el.value, p)
    ensures r.Success? ==> r.value.elems.Keys == d.elems.Keys
    ensures r.Success? ==> r.value.elems[c.el.value] == d.elems[c.el.value].(parent := Some(p))
    ensures r.Success? ==> forall x :: x in d.elems && x != c.el.value ==> r.value.elems[x] == d.elems[x]
  {
    if c.el.Some? && AppendChild(d, c.el.value, p).Success? then
      AppendedIsDescendant(d, c.el.value, p);
      Insert(d, c.el, p)
    else Insert(d, c.el, p)
  }

  // ------------------------------------------------------- closestComponent

  /** The element carries a truthy `data-component-id`. */
  predicate HasId(d: Document, x: NodeId) {
    x in d.elems && Truthy(d.elems[x].idAttr)
  }

  /**
    `closestComponent`: the registry entry of the nearest ancestor-or-self
    below `body` that carries an id. The walk stops at that element even
    when its id is stale, so the answer is then `null`.
  */
  function ClosestComponent(st: State, n: NodeId): (r: Option<Instance>)
    ensures var w := Walk(st.dom, n);
      forall i :: (0 <= i < |w| && HasId(st.dom, w[i]) && (forall j :: 0 <= j < i ==> !HasId(st.dom, w[j]))) ==>
        r == Lookup(st.registry, st.dom.elems[w[i]].idAttr.value)
    ensures var w := Walk(st.dom, n); (forall i :: 0 <= i < |w| ==> !HasId(st.dom, w[i])) ==> r.None?
    ensures r.Some? ==> r.value in st.registry.Values
  {
    match Closest(st.dom, n, (x: NodeId) => HasId(st.dom, x))
    case None => None
    case Some(x) => Lookup(st.registry, st.dom.elems[x].idAttr.value)
  }
}

=== FILE: decimal.dfy ===
/**
  The textual form of component ids.

  A component id is a positive integer, but it reaches the DOM through
  `setAttribute`, and the instance registry is a plain object, so both the
  `data-component-id` attribute and the registry key are the id's decimal
  text. This module defines that text and proves it reads back as the same
  integer, which is what makes distinct ids distinct keys.
*/
module Decimal {

  predicate IsDigit(c: char) {
    '0' <= c <= '9'
  }

  predicate AllDigits(s: string) {
    forall i :: 0 <= i < |s| ==> IsDigit(s[i])
  }

  function DigitChar(d: nat): (c: char)
    requires d < 10
    ensures IsDigit(c)
  {
    ('0' as int + d) as char
  }

  function DigitValue(c: char): (d: nat)
    requires IsDigit(c)
    ensures d < 10
    ensures DigitChar(d) == c
  {
    c as int - '0' as int
  }

  /** The decimal text of `n`, most significant digit first, as JavaScript writes an integer. */
  function Show(n: nat): (s: string)
    ensures |s| >= 1 && AllDigits(s)
    ensures s[0] == '0' <==> n == 0
    ensures |s| > 1 ==> s[0] != '0'
    decreases n
  {
    if n < 10 then [DigitChar(n)] else Show(n / 10) + [DigitChar(n % 10)]
  }

  /** The integer a string of decimal digits denotes. */
  function Value(s: string): nat
    requires AllDigits(s)
    decreases |s|
  {
    if |s| == 0 then 0 else 10 * Value(s[..|s| - 1]) + DigitValue(s[|s| - 1])
  }

  /** Writing an id and reading the attribute back gives the same integer. */
  lemma {:induction false} ValueShow(n: nat)
    ensures Value(Show(n)) == n
    decreases n
  {
    if n >= 10 {
      var s := Show(n / 10);
      var t := s + [DigitChar(n % 10)];
      assert t[..|t| - 1] == s;
      ValueShow(n / 10);
    }
  }

  /** Distinct ids have distinct texts, so they never share a registry key. */
  lemma ShowInjective(a: nat, b: nat)
    ensures Show(a) == Show(b) <==> a == b
  {
    if Show(a) == Show(b) {
      ValueShow(a);
      ValueShow(b);
    }
  }
}

=== FILE: discovery.dfy ===
/**
  Attribute-driven discovery: `fromElement` resolves or builds the
  instance for one element, and `parse` runs it over a subtree in
  document order.
*/
module Discovery {
  import opened Wrappers
  import opened Dom
  import opened Components
  import Decimal

  datatype Discovered = Discovered(state: State, found: Option<Instance>)

  /**
    The outcome of `parse`. An unknown type aborts the pass with an error,
    but the elements handled before it keep their instances, so the state
    reached so far is part of the outcome.
  */
  datatype Parsed = Parsed(state: State, error: Option<Error>)

  /** The element asks for no new instance: its name is falsy, or it already carries an id. */
  predicate Settled(d: Document, n: NodeId) {
    n in d.elems ==> !Truthy(d.elems[n].nameAttr) || Truthy(d.elems[n].idAttr)
  }

  /** The element carries an id under which the registry holds an instance bound to it. */
  predicate BoundTo(st: State, n: NodeId) {
    && HasId(st.dom, n)
    && st.dom.elems[n].idAttr.value in st.registry
    && st.registry[st.dom.elems[n].idAttr.value].el == Some(n)
  }

  /**
    The element is waiting for an instance of a type nobody registered:
    `fromElement` on it throws.
  */
  predicate Blocked(st: State, n: NodeId) {
    n in st.dom.elems && !Settled(st.dom, n) && st.dom.elems[n].nameAttr.value !in st.types
  }

  /**
    What discovery may do to the state: the tree, the types and the event
    counter stay, the id counter does not go back, registry entries are
    never replaced or dropped, and settled elements are never touched.
  */
  predicate Grows(st: State, s2: State) {
    && SameShape(st.dom, s2.dom)
    && s2.types == st.types && s2.eventsHandled == st.eventsHandled
    && st.nextId <= s2.nextId
    && (forall k :: k in st.registry ==> k in s2.registry && s2.registry[k] == st.registry[k])
    && (forall x :: x in st.dom.elems && Settled(st.dom, x) ==> s2.dom.elems[x] == st.dom.elems[x])
  }

  lemma GrowsTrans(s1: State, s2: State, s3: State)
    requires Grows(s1, s2) && Grows(s2, s3)
    ensures Grows(s1, s3)
  {
  }

  /** Binding survives growth: the element is settled, so untouched, and its entry stays. */
  lemma GrowsKeepsBound(st: State, s2: State, n: NodeId)
    requires Grows(st, s2) && BoundTo(st, n)
    ensures BoundTo(s2, n)
  {
  }

  /**
    `fromElement`. An element without a truthy name is not a component
    root: `null`. An element that already has an id is looked up in the
    registry, with no change, and the entry may be missing. Otherwise the
    name must be a registered type, or the call throws; a new instance is
    constructed on the element and registered under its id.
  */
  function FromElement(st: State, n: NodeId): (r: Result<Discovered, Error>)
    requires n in st.dom.elems
    ensures var e := st.dom.elems[n];
      !Truthy(e.nameAttr) ==> r == Success(Discovered(st, None))
    ensures var e := st.dom.elems[n];
      Truthy(e.nameAttr) && Truthy(e.idAttr) ==> r == Success(Discovered(st, Lookup(st.registry, e.idAttr.value)))
    ensures var e := st.dom.elems[n];
      Truthy(e.nameAttr) && !Truthy(e.idAttr) && e.nameAttr.value !in st.types ==>
        r == Failure(UnknownType(e.nameAttr.value))
    ensures var e := st.dom.elems[n];
      Truthy(e.nameAttr) && !Truthy(e.idAttr) && e.nameAttr.value in st.types ==>
        && r.Success? && r.value.found.Some?
        && r.value.found.value.id == st.nextId
        && r.value.found.value.el == Some(n)
        && r.value.found.value.name == st.types[e.nameAttr.value].name
        && r.value.found.value.events == st.types[e.nameAttr.value].events.GetOr([])
        && r.value.state.nextId == st.nextId + 1
        && r.value.state.registry.Keys == st.registry.Keys + {Decimal.Show(st.nextId)}
        && r.value.state.registry[Decimal.Show(st.nextId)] == r.value.found.value
        && n in r.value.state.dom.elems
        && r.value.state.dom.elems[n].idAttr == Some(Decimal.Show(st.nextId))
        && r.value.state.dom.elems[n].nameAttr == Some(st.types[e.nameAttr.value].name)
    ensures r.Success? ==> SameShape(st.dom, r.value.state.dom) && Settled(r.value.state.dom, n)
    ensures r.Success? && Inv(st) ==> Grows(st, r.value.state) && Inv(r.value.state)
    ensures r.Success? ==> forall x :: x in st.dom.elems && x != n ==> r.value.state.dom.elems[x] == st.dom.elems[x]
    ensures r.Success? && !Settled(st.dom, n) ==> BoundTo(r.value.state, n)
  {
    var e := st.dom.elems[n];
    if !Truthy(e.nameAttr) then Success(Discovered(st, None))
    else if Truthy(e.idAttr) then Success(Discovered(st, Lookup(st.registry, e.idAttr.value)))
    else if e.nameAttr.value !in st.types then Failure(UnknownType(e.nameAttr.value))
    else
      var b := Construct(st, st.types[e.nameAttr.value], Some(n));
      var key := Decimal.Show(b.instance.id);
      var s2 := b.state.(registry := b.state.registry[key := b.instance]);
      Decimal.ShowInjective(b.instance.id, Decimal.Value(b.state.dom.elems[n].idAttr.value));
      assert Inv(st) ==> key !in st.registry by {
        if Inv(st) { FreshKey(st); }
      }
      assert Inv(st) ==> Inv(s2) by {
        if Inv(st) {
          forall k | k in s2.registry
            ensures k == Decimal.Show(s2.registry[k].id) && 1 <= s2.registry[k].id < s2.nextId
          {
            if k != key {
              assert s2.registry[k] == st.registry[k];
            }
          }
        }
      }
      Success(Discovered(s2, Some(b.instance)))
  }

  /** Under the invariant, discovery either changes nothing or adds exactly one registry entry. */
  lemma FromElementCount(st: State, n: NodeId)
    requires Inv(st) && n in st.dom.elems
    requires FromElement(st, n).Success?
    ensures !Settled(st.dom, n) ==> |FromElement(st, n).value.state.registry| == |st.registry| + 1
    ensures Settled(st.dom, n) ==> FromElement(st, n).value.state == st
  {
    var s2 := FromElement(st, n).value.state;
    if !Settled(st.dom, n) {
      FreshKey(st);
      assert s2.registry.Keys == st.registry.Keys + {Decimal.Show(st.nextId)};
      assert |s2.registry.Keys| == |st.registry.Keys| + 1;
    }
  }

  /**
    Asking again is stable: a second `fromElement` on the same element
    changes nothing and, unless the stamped name is empty, returns the same
    instance.
  */
  lemma FromElementTwice(st: State, n: NodeId)
    requires n in st.dom.elems && FromElement(st, n).Success?
    ensures var first := FromElement(st, n).value;
      && FromElement(first.state, n).Success?
      && FromElement(first.state, n).value.state == first.state
    ensures var first := FromElement(st, n).value;
      Truthy(first.state.dom.elems[n].nameAttr) ==> FromElement(first.state, n).value == first
  {
  }

  /** A settled element leaves `fromElement` nothing to do. */
  lemma SettledStable(st: State, n: NodeId)
    requires n in st.dom.elems && Settled(st.dom, n)
    ensures FromElement(st, n).Success? && FromElement(st, n).value.state == st
  {
  }

  /**
    A successful `fromElement` neither unblocks nor blocks any element: the
    one it handled was not blocked and is settled afterwards, and the
    others and the type map are untouched.
  */
  lemma FromElementKeepsBlocked(st: State, n: NodeId, x: NodeId)
    requires Inv(st) && n in st.dom.elems && FromElement(st, n).Success?
    ensures Blocked(FromElement(st, n).value.state, x) == Blocked(st, x)
  {
  }

  /** Runs `fromElement` on each element of `ns` in turn, stopping at the first error. */
  function ParseAll(st: State, ns: seq<NodeId>): (p: Parsed)
    requires Inv(st)
    requires forall x :: x in ns ==> x in st.dom.elems
    ensures Grows(st, p.state) && Inv(p.state)
    ensures p.error.Some? ==> p.error.value.UnknownType?
    ensures p.error.None? ==> forall x :: x in ns ==> Settled(p.state.dom, x)
    ensures p.error.None? ==> forall x :: x in ns && !Settled(st.dom, x) ==> BoundTo(p.state, x)
    decreases |ns|
  {
    if ns == [] then Parsed(st, None)
    else
      match FromElement(st, ns[0])
      case Failure(e) => Parsed(st, Some(e))
      case Success(r) =>
        assert forall x :: x in ns ==> x == ns[0] || x in ns[1..];
        var p := ParseAll(r.state, ns[1..]);
        GrowsTrans(st, r.state, p.state);
        assert !Settled(st.dom, ns[0]) ==> BoundTo(p.state, ns[0]) by {
          if !Settled(st.dom, ns[0]) {
            GrowsKeepsBound(r.state, p.state, ns[0]);
          }
        }
        p
  }

  /** The pass fails exactly when some element of the list is blocked. */
  lemma {:induction false} ParseAllFailsIffBlocked(st: State, ns: seq<NodeId>)
    requires Inv(st)
    requires forall x :: x in ns ==> x in st.dom.elems
    ensures ParseAll(st, ns).error.None? <==> forall x :: x in ns ==> !Blocked(st, x)
    decreases |ns|
  {
    if ns != [] {
      assert ns[0] in ns;
      if FromElement(st, ns[0]).Success? {
        var r := FromElement(st, ns[0]).value;
        assert forall x :: x in ns ==> x == ns[0] || x in ns[1..];
        forall x | x in ns[1..] ensures Blocked(r.state, x) == Blocked(st, x) {
          FromElementKeepsBlocked(st, ns[0], x);
        }
        ParseAllFailsIffBlocked(r.state, ns[1..]);
      }
    }
  }

  /** The element `parse` starts from: the given root, or `body`. */
  function RootOf(st: State, root: Option<NodeId>): NodeId {
    root.GetOr(st.dom.body)
  }

  /**
    `parse`: `fromElement` on the root, then on every descendant carrying
    the name attribute, in document order. After a pass without error the
    root and all those descendants are settled, and each of them that was
    waiting for an instance is bound to a registered one.
  */
  function Parse(st: State, root: Option<NodeId>): (p: Parsed)
    requires Inv(st)
    requires RootOf(st, root) in st.dom.elems
    ensures Grows(st, p.state) && Inv(p.state)
    ensures p.error.Some? ==> p.error.value.UnknownType?
    ensures var r := RootOf(st, root);
      p.error.None? <==> !Blocked(st, r) && forall x :: x in NamedDescendants(st.dom, r) ==> !Blocked(st, x)
    ensures var r := RootOf(st, root);
      p.error.None? ==>
        && Settled(p.state.dom, r)
        && forall x :: x in NamedDescendants(p.state.dom, r) ==> Settled(p.state.dom, x)
    ensures var r := RootOf(st, root);
      p.error.None? ==>
        && (!Settled(st.dom, r) ==> BoundTo(p.state, r))
        && forall x :: x in NamedDescendants(st.dom, r) && !Settled(st.dom, x) ==> BoundTo(p.state, x)
  {
    var r := RootOf(st, root);
    match FromElement(st, r)
    case Failure(e) => Parsed(st, Some(e))
    case Success(found) =>
      var ns := NamedDescendants(found.state.dom, r);
      var p := ParseAll(found.state, ns);
      GrowsTrans(st, found.state, p.state);
      NamedDescendantsSameShape(found.state.dom, p.state.dom, r);
      NamedDescendantsSameShape(st.dom, found.state.dom, r);
      forall x | x in ns ensures Blocked(found.state, x) == Blocked(st, x) {
        FromElementKeepsBlocked(st, r, x);
      }
      ParseAllFailsIffBlocked(found.state, ns);
      assert p.error.None? && !Settled(st.dom, r) ==> BoundTo(p.state, r) by {
        if p.error.None? && !Settled(st.dom, r) {
          GrowsKeepsBound(found.state, p.state, r);
        }
      }
      assert p.error.None? ==> forall x :: x in ns && !Settled(st.dom, x) ==> BoundTo(p.state, x) by {
        if p.error.None? {
          forall x | x in ns && !Settled(st.dom, x) ensures BoundTo(p.state, x) {
            assert x != r;
          }
        }
      }
      p
  }

  /**
    The pass stops at the first blocked element: it fails with that
    element's name, in the state the elements before it produced, and
    those elements were handled without error.
  */
  lemma {:induction false} ParseAllStopsAtFirstUnknown(st: State, ns: seq<NodeId>, k: nat)
    requires Inv(st)
    requires forall x :: x in ns ==> x in st.dom.elems
    requires k < |ns| && Blocked(st, ns[k]) && forall j :: 0 <= j < k ==> !Blocked(st, ns[j])
    ensures ParseAll(st, ns[..k]).error.None?
    ensures ParseAll(st, ns) ==
      Parsed(ParseAll(st, ns[..k]).state, Some(UnknownType(st.dom.elems[ns[k]].nameAttr.value)))
    decreases k
  {
    if k == 0 {
      assert ns[..0] == [];
    } else {
      var r := FromElement(st, ns[0]).value;
      var rest := ns[1..];
      forall j | 0 <= j < k - 1 ensures !Blocked(r.state, rest[j]) {
        FromElementKeepsBlocked(st, ns[0], rest[j]);
      }
      FromElementKeepsBlocked(st, ns[0], ns[k]);
      assert rest[k - 1] == ns[k] && ns[k] != ns[0];
      ParseAllStopsAtFirstUnknown(r.state, rest, k - 1);
      assert ns[..k][0] == ns[0] && ns[..k][1..] == rest[..k - 1];
    }
  }

  /**
    `parse` is the pass over the root followed by its named descendants,
    the list taken from the tree as it was when `parse` began.
  */
  lemma ParseIsParseAll(st: State, root: Option<NodeId>, r: NodeId, ns: seq<NodeId>)
    requires Inv(st)
    requires r == RootOf(st, root) && r in st.dom.elems
    requires ns == NamedDescendants(st.dom, r)
    ensures Parse(st, root) == ParseAll(st, [r] + ns)
  {
    assert ([r] + ns)[0] == r && ([r] + ns)[1..] == ns;
    if FromElement(st, r).Success? {
      NamedDescendantsSameShape(st.dom, FromElement(st, r).value.state.dom, r);
    }
  }

  /** Running over settled elements changes nothing. */
  lemma {:induction false} ParseAllSettled(st: State, ns: seq<NodeId>)
    requires Inv(st)
    requires forall x :: x in ns ==> x in st.dom.elems && Settled(st.dom, x)
    ensures ParseAll(st, ns) == Parsed(st, None)
    decreases |ns|
  {
    if ns != [] {
      SettledStable(st, ns[0]);
      ParseAllSettled(st, ns[1..]);
    }
  }

  /** A second `parse` of the same subtree is a no-op: no new instances, no change at all. */
  lemma ParseIdempotent(st: State, root: Option<NodeId>)
    requires Inv(st)
    requires RootOf(st, root) in st.dom.elems
    requires Parse(st, root).error.None?
    ensures var once := Parse(st, root).state;
      Parse(once, root) == Parsed(once, None)
  {
    var once := Parse(st, root).state;
    var r := RootOf(st, root);
    assert RootOf(once, root) == r;
    SettledStable(once, r);
    var ns := NamedDescendants(once.dom, r);
    ParseAllSettled(once, ns);
  }

  /** The number of elements of `ns` that are waiting for an instance. */
  function CountUnbound(d: Document, ns: seq<NodeId>): nat
    decreases |ns|
  {
    if ns == [] then 0 else (if Settled(d, ns[0]) then 0 else 1) + CountUnbound(d, ns[1..])
  }

  lemma {:induction false} CountUnboundSame(d: Document, e: Document, ns: seq<NodeId>)
    requires forall i :: 0 <= i < |ns| ==> Settled(d, ns[i]) == Settled(e, ns[i])
    ensures CountUnbound(d, ns) == CountUnbound(e, ns)
    decreases |ns|
  {
    if ns != [] {
      CountUnboundSame(d, e, ns[1..]);
    }
  }

  /** Discovery over distinct elements adds one registry entry per element that was waiting. */
  lemma {:induction false} ParseAllCount(st: State, ns: seq<NodeId>)
    requires Inv(st) && Distinct(ns)
    requires forall x :: x in ns ==> x in st.dom.elems
    requires ParseAll(st, ns).error.None?
    ensures |ParseAll(st, ns).state.registry| == |st.registry| + CountUnbound(st.dom, ns)
    decreases |ns|
  {
    if ns != [] {
      FromElementCount(st, ns[0]);
      var s1 := FromElement(st, ns[0]).value.state;
      var rest := ns[1..];
      assert Distinct(rest);
      forall i | 0 <= i < |rest| ensures Settled(st.dom, rest[i]) == Settled(s1.dom, rest[i]) {
        assert rest[i] == ns[i + 1] && ns[i + 1] != ns[0];
      }
      CountUnboundSame(st.dom, s1.dom, rest);
      ParseAllCount(s1, rest);
    }
  }

  /**
    `parse` on a subtree adds exactly one registry entry per element, the
    root or a named descendant, that was waiting for an instance.
  */
  lemma ParseCount(st: State, root: Option<NodeId>)
    requires Inv(st) && Distinct(st.dom.order)
    requires RootOf(st, root) in st.dom.elems
    requires Parse(st, root).error.None?
    ensures var r := RootOf(st, root);
      |Parse(st, root).state.registry| == |st.registry| + CountUnbound(st.dom, [r] + NamedDescendants(st.dom, r))
  {
    var r := RootOf(st, root);
    FromElementCount(st, r);
    var s1 := FromElement(st, r).value.state;
    var ns := NamedDescendants(s1.dom, r);
    NamedDescendantsSameShape(st.dom, s1.dom, r);
    forall i | 0 <= i < |ns| ensures Settled(st.dom, ns[i]) == Settled(s1.dom, ns[i]) {
      assert ns[i] in ns;
    }
    CountUnboundSame(st.dom, s1.dom, ns);
    ParseAllCount(s1, ns);
    assert ([r] + ns)[1..] == ns;
  }

  /**
    A destroyed component's element keeps both attributes, so discovery on
    it finds a stale id and yields no instance instead of building a new one.
  */
  lemma DestroyedElementStaysUnbound(st: State, c: Instance)
    requires c.el.Some? && c.el.value in st.dom.elems
    requires Truthy(st.dom.elems[c.el.value].nameAttr)
    requires st.dom.elems[c.el.value].idAttr == Some(Decimal.Show(c.id))
    ensures var gone := Destroy(st, c).state;
      FromElement(gone, c.el.value) == Success(Discovered(gone, None))
  {
  }
}

=== FILE: dom.dfy ===
/**
  The abstract DOM the component framework runs over.

  An element is reduced to what the framework reads or writes: its parent
  element and its `data-component-name` / `data-component-id` attributes.
  The document keeps its elements in a map keyed by node id, names the
  `body` element, and fixes a document order for `querySelectorAll`.
  Selector matching is left abstract: a `Matcher` is any test of an
  element against a selector string.
*/
module Dom {
  import opened Wrappers

  type NodeId = nat

  datatype Elem = Elem(parent: Option<NodeId>, nameAttr: Option<string>, idAttr: Option<string>)

  datatype Document = Document(elems: map<NodeId, Elem>, body: NodeId, order: seq<NodeId>)

  /** The selector engine: does the element match the CSS selector? */
  type Matcher = (NodeId, string) -> bool

  datatype DomError = HierarchyRequest

  /** JavaScript truthiness of an attribute read: `null` and `""` are false. */
  predicate Truthy(a: Option<string>) {
    a.Some? && a.value != ""
  }

  predicate Distinct(s: seq<NodeId>) {
    forall i, j :: 0 <= i < j < |s| ==> s[i] != s[j]
  }

  /**
    `n` followed by its ancestors, following parent links until a node has
    no parent element or is not in the document. The `seen` set guards
    against revisiting a node; in a tree it never triggers, and it is what
    makes the walk finite in the model.
  */
  function Path(d: Document, n: NodeId, seen: set<NodeId>): (p: seq<NodeId>)
    ensures |p| > 0 <==> n in d.elems && n !in seen
    ensures |p| > 0 ==> p[0] == n
    ensures forall i :: 0 <= i < |p| ==> p[i] in d.elems && p[i] !in seen
    ensures forall i :: 0 <= i < |p| - 1 ==> d.elems[p[i]].parent == Some(p[i + 1])
    decreases d.elems.Keys - seen
  {
    if n !in d.elems || n in seen then []
    else
      match d.elems[n].parent
      case None => [n]
      case Some(q) =>
        var rest := Path(d, q, seen + {n});
        assert forall i :: 0 <= i < |rest| ==> rest[i] !in seen;
        [n] + rest
  }

  /** The prefix of `p` before the first occurrence of `stop`. */
  function UpTo(p: seq<NodeId>, stop: NodeId): (q: seq<NodeId>)
    ensures |q| <= |p| && q == p[..|q|]
    ensures stop !in q
    ensures |q| < |p| ==> p[|q|] == stop
  {
    if p == [] || p[0] == stop then [] else [p[0]] + UpTo(p[1..], stop)
  }

  /**
    The nodes `closestComponent` and `closestSelector` visit: the element
    itself and its ancestors, strictly below `body`.
  */
  function Walk(d: Document, n: NodeId): (w: seq<NodeId>)
    ensures |w| > 0 ==> w[0] == n
    ensures forall i :: 0 <= i < |w| ==> w[i] in d.elems && w[i] != d.body
    ensures forall i :: 0 <= i < |w| - 1 ==> d.elems[w[i]].parent == Some(w[i + 1])
    ensures (n in d.elems && n != d.body) <==> |w| > 0
  {
    var p := Path(d, n, {});
    var w := UpTo(p, d.body);
    assert forall i :: 0 <= i < |w| ==> w[i] == p[i];
    w
  }

  /**
    A path runs as far up as it can: its last node has no parent element,
    or a parent outside the document, or one already visited.
  */
  lemma {:induction false} PathMaximal(d: Document, n: NodeId, seen: set<NodeId>)
    ensures var p := Path(d, n, seen);
      |p| > 0 ==> var up := d.elems[p[|p| - 1]].parent;
        up.None? || up.value !in d.elems || up.value in seen || up.value in p
    decreases d.elems.Keys - seen
  {
    if n in d.elems && n !in seen {
      match d.elems[n].parent
      case None =>
      case Some(q) =>
        PathMaximal(d, q, seen + {n});
        var rest := Path(d, q, seen + {n});
        var p := Path(d, n, seen);
        assert p == [n] + rest;
        if rest != [] {
          assert p[|p| - 1] == rest[|rest| - 1];
          assert forall x :: x in rest ==> x in p;
        }
    }
  }

  /**
    The walk stops only at `body` or at the top of the tree: the parent of
    its last node is `body`, is missing, or lies outside the document (or
    would close a cycle, which a tree does not have).
  */
  lemma WalkMaximal(d: Document, n: NodeId)
    ensures var w := Walk(d, n);
      |w| > 0 ==> var up := d.elems[w[|w| - 1]].parent;
        up.None? || up == Some(d.body) || up.value !in d.elems || up.value in w
  {
    var p := Path(d, n, {});
    var w := Walk(d, n);
    PathMaximal(d, n, {});
    assert w == UpTo(p, d.body);
    if 0 < |w| < |p| {
      assert d.elems[p[|w| - 1]].parent == Some(p[|w|]);
    } else if 0 < |w| {
      assert w == p;
    }
  }

  /** The first node of `w` that satisfies `test`. */
  function First(w: seq<NodeId>, test: NodeId -> bool): (r: Option<NodeId>)
    ensures r.Some? ==> r.value in w && test(r.value)
    ensures forall i :: 0 <= i < |w| && test(w[i]) && (forall j :: 0 <= j < i ==> !test(w[j])) ==>
      r == Some(w[i])
    ensures (forall i :: 0 <= i < |w| ==> !test(w[i])) ==> r.None?
  {
    if w == [] then None
    else if test(w[0]) then Some(w[0])
    else
      var tail := w[1..];
      var r := First(tail, test);
      assert forall i :: 0 < i < |w| && test(w[i]) && (forall j :: 0 <= j < i ==> !test(w[j])) ==>
        tail[i - 1] == w[i] && (forall j :: 0 <= j < i - 1 ==> !test(tail[j])) by {
        forall i | 0 < i < |w| && test(w[i]) && (forall j :: 0 <= j < i ==> !test(w[j]))
          ensures forall j :: 0 <= j < i - 1 ==> !test(tail[j])
        {
          forall j | 0 <= j < i - 1 ensures !test(tail[j]) {
            assert tail[j] == w[j + 1];
          }
        }
      }
      r
  }

  /** The nearest ancestor-or-self of `n` below `body` that satisfies `test`. */
  function Closest(d: Document, n: NodeId, test: NodeId -> bool): (r: Option<NodeId>)
    ensures r.Some? ==> r.value in Walk(d, n) && test(r.value)
    ensures var w := Walk(d, n);
      forall i :: 0 <= i < |w| && test(w[i]) && (forall j :: 0 <= j < i ==> !test(w[j])) ==>
        r == Some(w[i])
    ensures var w := Walk(d, n); (forall i :: 0 <= i < |w| ==> !test(w[i])) ==> r.None?
  {
    First(Walk(d, n), test)
  }

  /** `closestSelector`: the nearest ancestor-or-self below `body` matching `selector`. */
  function ClosestSelector(d: Document, n: NodeId, selector: string, matches: Matcher): (r: Option<NodeId>)
    ensures r.Some? ==> r.value in Walk(d, n) && matches(r.value, selector)
    ensures var w := Walk(d, n);
      forall i :: (0 <= i < |w| && matches(w[i], selector) &&
        (forall j :: 0 <= j < i ==> !matches(w[j], selector))) ==> r == Some(w[i])
    ensures var w := Walk(d, n); (forall i :: 0 <= i < |w| ==> !matches(w[i], selector)) ==> r.None?
  {
    Closest(d, n, (x: NodeId) => matches(x, selector))
  }

  /** `r` lists some of the elements of `s`, in the order they have in `s`. */
  predicate Subsequence(r: seq<NodeId>, s: seq<NodeId>)
    decreases |s|
  {
    r == [] || (s != [] && if r[0] == s[0] then Subsequence(r[1..], s[1..]) else Subsequence(r, s[1..]))
  }

  /** The elements of `s` that satisfy `keep`, in their order in `s`. */
  function Filter(s: seq<NodeId>, keep: NodeId -> bool): (r: seq<NodeId>)
    ensures forall x :: x in r <==> x in s && keep(x)
    ensures Subsequence(r, s)
    ensures Distinct(s) ==> Distinct(r)
  {
    if s == [] then []
    else
      var rest := Filter(s[1..], keep);
      if keep(s[0]) then
        assert Distinct(s) ==> s[0] !in rest;
        assert ([s[0]] + rest)[1..] == rest;
        [s[0]] + rest
      else
        assert rest != [] ==> rest[0] != s[0];
        rest
  }

  /** `x` lies strictly inside the subtree rooted at `root`. */
  predicate IsDescendant(d: Document, x: NodeId, root: NodeId) {
    x != root && root in Path(d, x, {})
  }

  /** The elements whose name attribute is present. */
  predicate Named(d: Document, x: NodeId) {
    x in d.elems && d.elems[x].nameAttr.Some?
  }

  /**
    `querySelectorAll('[data-component-name]')` on `root`: the descendants
    carrying the name attribute, whatever its value, in document order.
  */
  function NamedDescendants(d: Document, root: NodeId): (r: seq<NodeId>)
    ensures forall x :: x in r <==> x in d.order && Named(d, x) && IsDescendant(d, x, root)
    ensures Subsequence(r, d.order)
    ensures Distinct(d.order) ==> Distinct(r)
  {
    Filter(d.order, (x: NodeId) => Named(d, x) && IsDescendant(d, x, root))
  }

  /**
    Two documents with the same tree: the same elements, body, order and
    parents, and the same elements carrying the name attribute. Writing
    attribute values keeps the shape.
  */
  predicate SameShape(d: Document, e: Document) {
    && d.body == e.body
    && d.order == e.order
    && d.elems.Keys == e.elems.Keys
    && forall x :: x in d.elems ==>
         e.elems[x].parent == d.elems[x].parent && e.elems[x].nameAttr.Some? == d.elems[x].nameAttr.Some?
  }

  lemma {:induction false} PathSameShape(d: Document, e: Document, n: NodeId, seen: set<NodeId>)
    requires SameShape(d, e)
    ensures Path(d, n, seen) == Path(e, n, seen)
    decreases d.elems.Keys - seen
  {
    if n in d.elems && n !in seen && d.elems[n].parent.Some? {
      PathSameShape(d, e, d.elems[n].parent.value, seen + {n});
    }
  }

  /** Writing attributes does not change which elements `parse` visits. */
  lemma NamedDescendantsSameShape(d: Document, e: Document, root: NodeId)
    requires SameShape(d, e)
    ensures NamedDescendants(d, root) == NamedDescendants(e, root)
  {
    forall x | x in d.order
      ensures (Named(d, x) && IsDescendant(d, x, root)) == (Named(e, x) && IsDescendant(e, x, root))
    {
      PathSameShape(d, e, x, {});
    }
    FilterSame(d.order, (x: NodeId) => Named(d, x) && IsDescendant(d, x, root),
               (x: NodeId) => Named(e, x) && IsDescendant(e, x, root));
  }

  lemma {:induction false} FilterSame(s: seq<NodeId>, f: NodeId -> bool, g: NodeId -> bool)
    requires forall x :: x in s ==> f(x) == g(x)
    ensures Filter(s, f) == Filter(s, g)
  {
    if s != [] {
      FilterSame(s[1..], f, g);
    }
  }

  /** `parent.removeChild(el)`: the element loses its parent; nothing else changes. */
  function Detach(d: Document, n: NodeId): (e: Document)
    ensures e.body == d.body && e.order == d.order && e.elems.Keys == d.elems.Keys
    ensures n in d.elems ==> e.elems[n] == d.elems[n].(parent := None)
    ensures forall x :: x in d.elems && x != n ==> e.elems[x] == d.elems[x]
  {
    if n in d.elems then d.(elems := d.elems[n := d.elems[n].(parent := None)]) else d
  }

  /**
    `parent.appendChild(child)`: the child is reparented under `parent`.
    The platform refuses to insert a node into itself or into its own
    subtree.
  */
  function AppendChild(d: Document, child: NodeId, parent: NodeId): (r: Result<Document, DomError>)
    requires child in d.elems && parent in d.elems
    ensures r.Failure? <==> child in Path(d, parent, {})
    ensures r.Success? ==>
      var e := r.value;
      && e.body == d.body && e.order == d.order && e.elems.Keys == d.elems.Keys
      && e.elems[child] == d.elems[child].(parent := Some(parent))
      && (forall x :: x in d.elems && x != child ==> e.elems[x] == d.elems[x])
  {
    if child in Path(d, parent, {}) then Failure(HierarchyRequest)
    else Success(d.(elems := d.elems[child := d.elems[child].(parent := Some(parent))]))
  }

  /** After a successful `appendChild`, the child lies inside the new parent's subtree. */
  lemma AppendedIsDescendant(d: Document, child: NodeId, parent: NodeId)
    requires child in d.elems && parent in d.elems
    requires AppendChild(d, child, parent).Success?
    ensures IsDescendant(AppendChild(d, child, parent).value, child, parent)
  {
  }

  /** If `0 .. k-1` all lie in `s`, then `s` has at least `k` elements. */
  lemma {:induction false} RangeInside(s: set<NodeId>, k: nat)
    requires forall j :: 0 <= j < k ==> j in s
    ensures k <= |s|
  {
    if k > 0 {
      RangeInside(s - {k - 1}, k - 1);
    }
  }

  /** The least id from `k` on that `s` does not use. */
  function FirstFree(s: set<NodeId>, k: nat): (n: NodeId)
    requires forall j :: 0 <= j < k ==> j in s
    ensures n !in s && k <= n
    ensures forall j :: 0 <= j < n ==> j in s
    decreases |s| - k
  {
    if k !in s then k
    else
      RangeInside(s, k + 1);
      FirstFree(s, k + 1)
  }

  /** The ids that some element of the document names as its parent. */
  function ParentIds(d: Document): set<NodeId> {
    set x | x in d.elems && d.elems[x].parent.Some? :: d.elems[x].parent.value
  }

  /**
    `document.createElement`: an id no element of the document uses yet,
    neither as its own id, nor as `body`, nor as a parent link, so the new
    element starts out with no children.
  */
  function FreshNode(d: Document): (n: NodeId)
    ensures n !in d.elems && n != d.body
    ensures forall x :: x in d.elems ==> d.elems[x].parent != Some(n)
  {
    var n := FirstFree(d.elems.Keys + ParentIds(d) + {d.body}, 0);
    assert forall x :: x in d.elems && d.elems[x].parent.Some? ==> d.elems[x].parent.value in ParentIds(d);
    n
  }
}

=== FILE: events.dfy ===
/**
  Delegated event dispatch: one listener per event type on `body` hands
  every event to `handleEvent`, which finds the owning component by the
  nearest id-carrying ancestor and invokes its matching bindings. A handler
  invocation is recorded as a `Call` instead of being run.
*/
module Events {
  import opened Wrappers
  import opened Dom
  import opened Components
  import Decimal

  /** A browser event: its target element and its type (`event.type`). */
  datatype Event = Event(target: NodeId, kind: string)

  /**
    One invocation `component[handler](event)`, or
    `component[handler](event, matched)` for a binding with a selector.
  */
  datatype Call = Call(component: nat, handler: string, matched: Option<NodeId>)

  datatype Handled = Handled(state: State, calls: seq<Call>)

  /**
    What one binding does for an event on component `owner`: nothing when
    its event type differs; with a truthy selector, a call with the nearest
    matching ancestor-or-self of the target below `body`, or nothing when
    there is none; without one, a plain call.
  */
  function Fire(d: Document, matches: Matcher, owner: nat, ev: Event, b: Binding): (c: Option<Call>)
    ensures c.Some? ==> b.event == ev.kind && c.value.component == owner && c.value.handler == b.handler
    ensures b.event == ev.kind && !Truthy(b.selector) ==> c == Some(Call(owner, b.handler, None))
    ensures c.Some? && Truthy(b.selector) ==>
      c.value.matched.Some? && matches(c.value.matched.value, b.selector.value)
  {
    if b.event != ev.kind then None
    else if Truthy(b.selector) then
      match ClosestSelector(d, ev.target, b.selector.value, matches)
      case None => None
      case Some(el) => Some(Call(owner, b.handler, Some(el)))
    else Some(Call(owner, b.handler, None))
  }

  /**
    A binding with a selector fires with the nearest matching element on
    the walk from the target, and not at all when nothing there matches.
  */
  lemma FireNearestMatch(d: Document, matches: Matcher, owner: nat, ev: Event, b: Binding)
    requires b.event == ev.kind && Truthy(b.selector)
    ensures var w := Walk(d, ev.target);
      (forall i :: 0 <= i < |w| ==> !matches(w[i], b.selector.value)) ==> Fire(d, matches, owner, ev, b).None?
    ensures var w := Walk(d, ev.target);
      forall i :: (0 <= i < |w| && matches(w[i], b.selector.value) &&
        (forall j :: 0 <= j < i ==> !matches(w[j], b.selector.value))) ==>
        Fire(d, matches, owner, ev, b) == Some(Call(owner, b.handler, Some(w[i])))
  {
  }

  /** The method names the bindings declare for event type `kind`. */
  function Handlers(bs: seq<Binding>, kind: string): set<string> {
    set b | b in bs && b.event == kind :: b.handler
  }

  /**
    The scan over a component's bindings: every binding, in declaration
    order, with no early exit; each one that fires contributes its call.
  */
  function Scan(d: Document, matches: Matcher, owner: nat, ev: Event, bs: seq<Binding>): (calls: seq<Call>)
    ensures |calls| <= |bs|
    ensures forall c :: c in calls ==> c.component == owner
    ensures forall c :: c in calls ==> c.handler in Handlers(bs, ev.kind)
    ensures forall c :: c in calls ==> exists b :: b in bs && Fire(d, matches, owner, ev, b) == Some(c)
    ensures forall b :: b in bs && Fire(d, matches, owner, ev, b).Some? ==> Fire(d, matches, owner, ev, b).value in calls
  {
    if bs == [] then []
    else
      var rest := Scan(d, matches, owner, ev, bs[1..]);
      assert forall b :: b in bs ==> b == bs[0] || b in bs[1..];
      match Fire(d, matches, owner, ev, bs[0])
      case None => rest
      case Some(c) => [c] + rest
  }

  /** Fan-out in declaration order: scanning two lists of bindings is scanning one, then the other. */
  lemma {:induction false} ScanAppend(d: Document, matches: Matcher, owner: nat, ev: Event, a: seq<Binding>, b: seq<Binding>)
    ensures Scan(d, matches, owner, ev, a + b) == Scan(d, matches, owner, ev, a) + Scan(d, matches, owner, ev, b)
    decreases |a|
  {
    if a != [] {
      assert (a + b)[0] == a[0];
      assert (a + b)[1..] == a[1..] + b;
      ScanAppend(d, matches, owner, ev, a[1..], b);
      var tail := Scan(d, matches, owner, ev, a[1..]);
      var rest := Scan(d, matches, owner, ev, b);
      match Fire(d, matches, owner, ev, a[0])
      case None =>
      case Some(c) =>
        assert [c] + (tail + rest) == ([c] + tail) + rest;
    } else {
      assert a + b == b;
    }
  }

  /** Bindings for other event types are never invoked. */
  lemma {:induction false} ScanOtherEvents(d: Document, matches: Matcher, owner: nat, ev: Event, bs: seq<Binding>)
    requires forall i :: 0 <= i < |bs| ==> bs[i].event != ev.kind
    ensures Scan(d, matches, owner, ev, bs) == []
    decreases |bs|
  {
    if bs != [] {
      ScanOtherEvents(d, matches, owner, ev, bs[1..]);
    }
  }

  /**
    `handleEvent`: count the event, find the owning component, and scan its
    bindings. The counter goes up by exactly one whatever happens, and
    nothing else in the state changes; without an owner nothing is invoked;
    every call goes to the owner, for a binding of this event type; and
    every selector-free binding of this type is invoked.
  */
  function HandleEvent(st: State, ev: Event, matches: Matcher): (h: Handled)
    ensures h.state == st.(eventsHandled := st.eventsHandled + 1)
    ensures ClosestComponent(st, ev.target).None? ==> h.calls == []
    ensures ClosestComponent(st, ev.target).Some? ==>
      var c := ClosestComponent(st, ev.target).value;
      && |h.calls| <= |c.events|
      && (forall call :: call in h.calls ==> call.component == c.id && call.handler in Handlers(c.events, ev.kind))
      && (forall b :: b in c.events && b.event == ev.kind && !Truthy(b.selector) ==>
            Call(c.id, b.handler, None) in h.calls)
  {
    var counted := st.(eventsHandled := st.eventsHandled + 1);
    match ClosestComponent(st, ev.target)
    case None => Handled(counted, [])
    case Some(c) =>
      Handled(counted, Scan(st.dom, matches, c.id, ev, c.events))
  }

  /** Dispatch leaves the invariant alone. */
  lemma HandleEventInv(st: State, ev: Event, matches: Matcher)
    requires Inv(st)
    ensures Inv(HandleEvent(st, ev, matches).state)
  {
  }

  /**
    Nested components: only the innermost one around the target is
    involved. When the walk from the target meets a live component's
    element before any other id, every call goes to that component and
    none to a component further out.
  */
  lemma InnermostComponentHandles(st: State, ev: Event, matches: Matcher, i: nat, o: nat)
    requires Inv(st)
    requires var w := Walk(st.dom, ev.target);
      && i < o < |w| && HasId(st.dom, w[i]) && HasId(st.dom, w[o])
      && (forall j :: 0 <= j < i ==> !HasId(st.dom, w[j]))
      && st.dom.elems[w[i]].idAttr.value in st.registry
      && st.dom.elems[w[o]].idAttr.value in st.registry
      && st.dom.elems[w[i]].idAttr != st.dom.elems[w[o]].idAttr
    ensures var w := Walk(st.dom, ev.target);
      var inner := st.registry[st.dom.elems[w[i]].idAttr.value];
      var outer := st.registry[st.dom.elems[w[o]].idAttr.value];
      forall k :: 0 <= k < |HandleEvent(st, ev, matches).calls| ==>
        HandleEvent(st, ev, matches).calls[k].component == inner.id != outer.id
  {
  }

  /** With an owner found, dispatch is exactly the scan over its bindings. */
  lemma HandleEventScans(st: State, ev: Event, matches: Matcher, c: Instance)
    requires ClosestComponent(st, ev.target) == Some(c)
    ensures HandleEvent(st, ev, matches).calls == Scan(st.dom, matches, c.id, ev, c.events)
  {
  }

  /** A scan over one binding yields that binding's call, if it fires. */
  lemma ScanOne(d: Document, matches: Matcher, owner: nat, ev: Event, b: Binding)
    ensures Fire(d, matches, owner, ev, b).None? ==> Scan(d, matches, owner, ev, [b]) == []
    ensures Fire(d, matches, owner, ev, b).Some? ==>
      Scan(d, matches, owner, ev, [b]) == [Fire(d, matches, owner, ev, b).value]
  {
  }

  /**
    A component with one selector binding, as in a list whose items are
    clicked: a click inside a matching element invokes the handler once,
    with the nearest matching element on the way up from the target.
  */
  lemma SelectorBindingFires(st: State, ev: Event, matches: Matcher, c: Instance, i: nat)
    requires ClosestComponent(st, ev.target) == Some(c)
    requires |c.events| == 1 && c.events[0].event == ev.kind && Truthy(c.events[0].selector)
    ensures var w := Walk(st.dom, ev.target); var sel := c.events[0].selector.value;
      (i < |w| && matches(w[i], sel) && (forall j :: 0 <= j < i ==> !matches(w[j], sel))) ==>
        HandleEvent(st, ev, matches).calls == [Call(c.id, c.events[0].handler, Some(w[i]))]
  {
    var b := c.events[0];
    assert c.events == [b];
    HandleEventScans(st, ev, matches, c);
    ScanOne(st.dom, matches, c.id, ev, b);
    FireNearestMatch(st.dom, matches, c.id, ev, b);
  }

  /** The same binding stays silent when nothing on the walk matches its selector. */
  lemma SelectorBindingSilent(st: State, ev: Event, matches: Matcher, c: Instance)
    requires ClosestComponent(st, ev.target) == Some(c)
    requires |c.events| == 1 && c.events[0].event == ev.kind && Truthy(c.events[0].selector)
    requires var w := Walk(st.dom, ev.target);
      forall j :: 0 <= j < |w| ==> !matches(w[j], c.events[0].selector.value)
    ensures HandleEvent(st, ev, matches).calls == []
  {
    var b := c.events[0];
    assert c.events == [b];
    HandleEventScans(st, ev, matches, c);
    ScanOne(st.dom, matches, c.id, ev, b);
    FireNearestMatch(st.dom, matches, c.id, ev, b);
  }

  // ------------------------------------------------------------- bindEvents

  /** A listener `bindEvents` attaches to `body`: its event type and whether it uses capture. */
  datatype Listener = Listener(kind: string, capture: bool)

  /** The event types `bindEvents` listens for, in the order it attaches them. */
  const EventKinds: seq<string> := [
    "click", "mousedown", "mouseup", "mousemove", "touchstart", "touchmove",
    "touchend", "keyup", "keydown", "blur", "focus", "submit", "change"
  ]

  /**
    `bindEvents`: one listener per event type; those after the ninth entry
    use capture, which are exactly the events that do not bubble or that
    forms fire: blur, focus, submit and change.
  */
  function BindEvents(): (ls: seq<Listener>)
    ensures |ls| == |EventKinds|
    ensures forall i :: 0 <= i < |ls| ==> ls[i].kind == EventKinds[i]
    ensures forall i :: 0 <= i < |ls| ==> (ls[i].capture <==> ls[i].kind in {"blur", "focus", "submit", "change"})
  {
    seq(|EventKinds|, (i: int) requires 0 <= i < |EventKinds| => Listener(EventKinds[i], i > 8))
  }
}

=== FILE: scenarios.dfy ===
/**
  End-to-end consequences of registration, discovery and dispatch taken
  together.
*/
module Scenarios {
  import opened Wrappers
  import opened Dom
  import opened Components
  import opened Discovery
  import opened Events
  import Decimal

  /**
    A component discovered on an element receives its own events: after
    `fromElement` binds a type whose one binding is selector-free, an event
    of that type on the element invokes the handler exactly once and counts
    one event.
  */
  lemma DiscoveredComponentHandlesClick(st: State, x: NodeId, kind: string, handler: string, matches: Matcher)
    requires Inv(st)
    requires x in st.dom.elems && x != st.dom.body
    requires Truthy(st.dom.elems[x].nameAttr) && !Truthy(st.dom.elems[x].idAttr)
    requires st.dom.elems[x].nameAttr.value in st.types
    requires st.types[st.dom.elems[x].nameAttr.value].events == Some([Binding(kind, None, handler)])
    ensures var d := FromElement(st, x).value;
      HandleEvent(d.state, Event(x, kind), matches) ==
        Handled(d.state.(eventsHandled := st.eventsHandled + 1), [Call(d.found.value.id, handler, None)])
  {
  }

  /**
    A component built directly with its constructor and appended to the
    page is never registered, so events on its element reach no handler.
    Only `fromElement` registers instances.
  */
  lemma ConstructedComponentIsNotDispatched(st: State, t: TypeDef, kind: string, matches: Matcher, b: Built, d: Document)
    requires Inv(st) && st.dom.body in st.dom.elems
    requires b == Construct(st, t, None)
    requires AppendTo(b.state.dom, b.instance, ToElement(st.dom.body)) == Success(d)
    ensures HandleEvent(b.state.(dom := d), Event(b.instance.el.value, kind), matches).calls == []
  {
    var n := b.instance.el.value;
    var placed := b.state.(dom := d);
    var w := Walk(placed.dom, n);
    assert w[0] == n && HasId(placed.dom, w[0]);
    var key := placed.dom.elems[n].idAttr.value;
    assert Decimal.Value(key) == st.nextId;
    if key in placed.registry {
      Decimal.ValueShow(placed.registry[key].id);
    }
    assert ClosestComponent(placed, n).None?;
  }
}

=== FILE: wrappers.dfy ===
/** Failure-compatible result types shared by the model. */
module Wrappers {

  /** A value that may be absent: the model's rendering of JavaScript's `null`/`undefined`. */
  datatype Option<+T> = None | Some(value: T) {

    /** The wrapped value, or `default` when there is none. */
    function GetOr(default: T): T {
      match this
      case Some(v) => v
      case None => default
    }
  }

  /** The outcome of an operation that may throw: `Failure` carries the thrown error. */
  datatype Result<+R, +E> = Success(value: R) | Failure(error: E)
}
